=== FILE: README.md ===
# Character selector, edge import and node export — a Dafny model

This project models three small pieces of a hospital wayfinding web application
(a React frontend with an embedded minigame, and an Express/Prisma backend):

- **Character selector** (`CharacterSelector`, `character_selector.dfy`): the
  keyboard state machine of the minigame's character picker. A cursor moves over
  `itemCount` characters laid out as a row of 7 above a row of 6. A held arrow
  key locks out the other arrows until it is released. Enter first marks the
  character as chosen, and a second Enter launches the game with it; Escape
  cancels the choice. Every React state setter becomes part of a returned state,
  and the browser navigation becomes a `Launch(index)` effect.
- **Edge CSV import** (`EdgeImport`, `edge_import.dfy`): the POST handler of the
  edge-populate route. It clears the edge table, maps every parsed CSV row to an
  edge by position (`edgeID` = first value followed by second value), and inserts
  them all. The table is an abstract sequence; the store's and the parser's
  answers are inputs.
- **Node CSV export** (`NodeExport`, `node_export.dfy`): `convertToCSV`, which
  renders node records as a header line of field names and one comma-joined line
  of values per record, with lines separated by newlines.

Supporting modules: `Wrappers` (`Option`, `Result`), `CsvText` (`join` and a
one-character split, with the round trip between them) and `Decimal` (how an
integer is written into the launch address, plus a reference parser).

Points where the model follows the code rather than a simpler reading:

- `setIndexSafely` uses JavaScript's truncating `%`. This is modelled as
  `TruncRem`, because Dafny's `%` is Euclidean. The stored index is in range
  whenever the requested index is at least `-itemCount`.
- The hook stores `initialIndex` unchecked, so the state's index is an `int`.
  A negative index takes the `index < 7` branch of `moveDown`.
- `moveDown` from index 0 calls `setIndexSafely(7)`. The stored index is
  therefore `7 % itemCount`, which is 7 only when there are more than 7 characters.
- A row with one value gives `endNodeID` = `undefined` and an `edgeID` ending in
  the text `undefined`, because that is what `concat` does with a missing
  argument. A row with no values throws, which the handler catches.
- An empty node list makes `convertToCSV` throw, since `data[0]` is undefined.
  The route answers 500. This is modelled as a `Failure`, not as a precondition.

## Model

| member | source | states |
|---|---|---|
| CharacterSelector.TruncRem | apps/frontend/src/game_components/hooks/useCharacterSelector.jsx:22 | JavaScript `%`: the remainder has the dividend's sign, lies strictly within `itemCount` of zero, and differs from the dividend by a multiple of `itemCount` |
| CharacterSelector.NormalizeIndex | apps/frontend/src/game_components/hooks/useCharacterSelector.jsx:20-25 | the stored index is in `[0, itemCount)` for every request of at least `-itemCount`; in-range requests are stored unchanged; requests in `[-itemCount, 0)` wrap to `+itemCount`; below that the result is at most 0; always congruent to the request |
| CharacterSelector.MovePrev | apps/frontend/src/game_components/hooks/useCharacterSelector.jsx:27-32 | if another arrow is held nothing changes; otherwise Left becomes held and the index decreases by one, going from 0 to `itemCount-1`; the range is kept |
| CharacterSelector.MoveNext | apps/frontend/src/game_components/hooks/useCharacterSelector.jsx:34-39 | if another arrow is held nothing changes; otherwise Right becomes held and the index increases by one, going from `itemCount-1` to 0; the range is kept |
| CharacterSelector.MoveUp | apps/frontend/src/game_components/hooks/useCharacterSelector.jsx:41-49 | when locked, nothing changes; below index 7 only the held arrow is recorded; from index 7 on, the cursor always lands in range, exactly six places back whenever the index is below `itemCount + 6` |
| CharacterSelector.MoveDown | apps/frontend/src/game_components/hooks/useCharacterSelector.jsx:51-61 | when locked, nothing changes; index 0 goes to `7 % itemCount`, which is 7 when there are more than 7 characters; indices 1..6 go to `(index + 6) % itemCount`, which is `index + 6` when that is in range; from index 7 on the index stays |
| CharacterSelector.KeyboardEnter | apps/frontend/src/game_components/hooks/useCharacterSelector.jsx:63-69 | Enter while unselected selects and does not navigate; Enter while selected launches with the current index; the index never changes |
| CharacterSelector.KeyboardEscape | apps/frontend/src/game_components/hooks/useCharacterSelector.jsx:71-73 | Escape always leaves the selector unselected and does not touch the index or the held arrow |
| CharacterSelector.SetCurrentIndex | apps/frontend/src/game_components/hooks/useCharacterSelector.jsx:75-80 | an explicit jump goes through the same normalisation: the stored index differs from the target by a multiple of `itemCount`, lies in range for every target of at least `-itemCount` (so -1 becomes `itemCount-1` and `itemCount` becomes 0), and in-range targets are stored as given; nothing else changes |
| CharacterSelector.Classify | apps/frontend/src/game_components/hooks/useCharacterSelector.jsx:84-105 | a key name is an arrow only if it is that arrow's name; it is Enter or Escape exactly when it is that name |
| CharacterSelector.ClassifyArrowName | apps/frontend/src/game_components/hooks/useCharacterSelector.jsx:85-96 | each arrow's key name dispatches to that arrow's move |
| CharacterSelector.ClassifyArrowIff | apps/frontend/src/game_components/hooks/useCharacterSelector.jsx:84-105 | a key name dispatches to an arrow move exactly when it is one of the four arrow names |
| CharacterSelector.KeyDown | apps/frontend/src/game_components/hooks/useCharacterSelector.jsx:82-108 | any other key changes nothing; an arrow key takes the lock and moves when unlocked, and changes nothing when another arrow is held; Enter always leaves the selector selected and launches with the current index exactly when it already was; Escape leaves it unselected; non-arrow keys keep index and lock; the range is kept |
| CharacterSelector.KeyUp | apps/frontend/src/game_components/hooks/useCharacterSelector.jsx:110-117 | a release changes the state exactly when it is the held arrow's name, and then only clears the lock |
| CharacterSelector.GetCharacter | apps/frontend/src/game_components/hooks/useCharacterSelector.jsx:131-133 | a character is returned exactly when the index is in range, and it is the one at the index; its partner `CharacterAlwaysDefined` shows that is always so after any key events from an in-range start |
| CharacterSelector.CharacterAlwaysDefined | apps/frontend/src/game_components/hooks/useCharacterSelector.jsx:119-133 | from an in-range cursor over a non-empty character list, every sequence of key events leaves a defined character under the cursor |
| CharacterSelector.LaunchUrl | apps/frontend/src/game_components/hooks/useCharacterSelector.jsx:67 | the address is the fixed game path, then text that parses back to the launched index |
| CharacterSelector.Run | apps/frontend/src/game_components/hooks/useCharacterSelector.jsx:119-129 | events are handled one at a time in order, each key-down by the key-down handler and each key-up by the key-up handler, with one effect per event |
| CharacterSelector.RunAppend | apps/frontend/src/game_components/hooks/useCharacterSelector.jsx:119-129 | processing two event sequences one after the other is the same as processing their concatenation |
| CharacterSelector.RunKeepsInRange | apps/frontend/src/game_components/hooks/useCharacterSelector.jsx:20-117 | no sequence of key events takes an in-range cursor out of range |
| CharacterSelector.LaunchOnlyWhenSelected | apps/frontend/src/game_components/hooks/useCharacterSelector.jsx:63-69 | in any run, a launch comes only from an Enter pressed while selected, with the index at that moment |
| CharacterSelector.EnterWhenSelectedLaunches | apps/frontend/src/game_components/hooks/useCharacterSelector.jsx:63-69 | in any run, an Enter pressed while selected launches with the index at that moment |
| CharacterSelector.HoldRight | apps/frontend/src/game_components/hooks/useCharacterSelector.jsx:34-39 | `n` auto-repeated ArrowRight presses move the cursor to `(index + n) mod itemCount` with no launch |
| CharacterSelector.LockHolds | apps/frontend/src/game_components/hooks/useCharacterSelector.jsx:27-61 | while one arrow is held, presses of the other arrows and releases of other keys leave the state unchanged |
| CharacterSelector.PressReleaseUnlocks | apps/frontend/src/game_components/hooks/useCharacterSelector.jsx:110-117 | pressing and then releasing an arrow leaves no arrow held |
| CharacterSelector.NextThenPrev | apps/frontend/src/game_components/hooks/useCharacterSelector.jsx:27-39 | right, release, left returns to the starting character |
| CharacterSelector.DownThenUp | apps/frontend/src/game_components/hooks/useCharacterSelector.jsx:41-61 | from first-row positions 1..6, down, release, up returns to the start |
| CharacterSelector.UpThenDown | apps/frontend/src/game_components/hooks/useCharacterSelector.jsx:41-61 | from second-row positions 7..12, up, release, down returns to the start |
| CharacterSelector.DownFromFirstComesBackOne | apps/frontend/src/game_components/hooks/useCharacterSelector.jsx:51-61 | the rows are staggered: down from index 0 and then up lands on index 1 |
| CharacterSelector.EnterTwiceLaunches | apps/frontend/src/game_components/hooks/useCharacterSelector.jsx:10-69 | two Enters from a fresh selector select without effect and then launch the initial index |
| CharacterSelector.EscapeCancels | apps/frontend/src/game_components/hooks/useCharacterSelector.jsx:10-73 | Enter, Escape, Enter launches nothing and leaves the selector selected |
| Decimal.NatToString | apps/frontend/src/game_components/hooks/useCharacterSelector.jsx:67 | the index text is a non-empty run of digits, `0` for zero, and has no leading zero otherwise |
| Decimal.IntToString | apps/frontend/src/game_components/hooks/useCharacterSelector.jsx:67 | `${index}` for an integer: the digits of a non-negative index, or a minus sign followed by the digits of the magnitude |
| Decimal.IntRoundTrip | apps/frontend/src/game_components/hooks/useCharacterSelector.jsx:67 | the text written for any integer index parses back to that index |
| EdgeImport.RowToEdge | apps/backend/src/routes/edge-route.ts:17-22 | an empty row fails; otherwise the start is the first value, the end is the second value (missing if absent), and the ID is the start followed by the end's text |
| EdgeImport.TransformRows | apps/backend/src/routes/edge-route.ts:16-23 | it succeeds exactly when no row is empty, giving one edge per row in row order; otherwise it reports the first empty row |
| EdgeImport.ImportEdges | apps/backend/src/routes/edge-route.ts:8-38 | a failed clear changes nothing; after the clear, every failure leaves the table empty; success happens exactly when clear, parse, transform and insert all succeed, and the table is then exactly the transformed edges |
| EdgeImport.ImportReplacesTable | apps/backend/src/routes/edge-route.ts:13-33 | after a successful import the table has one edge per row, each built from its row's first two values; an old edge survives only if some row rebuilds it |
| EdgeImport.FailureLeavesTableEmpty | apps/backend/src/routes/edge-route.ts:13-36 | once the table is cleared, a parse, transform or insert failure leaves it empty |
| EdgeImport.ExtraColumnsIgnored | apps/backend/src/routes/edge-route.ts:17-22 | values after the second column do not affect the edge |
| EdgeImport.SameEndpointsSameEdge | apps/backend/src/routes/edge-route.ts:19-21 | rows that agree on their first two values give equal edges |
| EdgeImport.EdgeIdsCanCollide | apps/backend/src/routes/edge-route.ts:19 | the ID does not determine the endpoints: rows `AB,C` and `A,BC` get the same ID |
| EdgeImport.EdgeIdDeterminesEndpoints | apps/backend/src/routes/edge-route.ts:19-21 | when start IDs have equal length, equal edge IDs mean equal endpoints |
| EdgeImport.SingleColumnRow | apps/backend/src/routes/edge-route.ts:19-21 | a one-value row gives an edge with no end and an ID ending in `undefined` |
| CsvText.Join | apps/backend/src/routes/data-to-csv-node.ts:9-11 | joining no parts gives empty text; otherwise the text starts with the first part |
| CsvText.Split | apps/backend/src/routes/data-to-csv-node.ts:9-11 | splitting gives at least one piece; no piece contains the separator; the pieces join back to the input |
| CsvText.SplitJoin | apps/backend/src/routes/data-to-csv-node.ts:9-11 | when no part contains the separator, splitting the joined text gives back exactly the parts |
| CsvText.EmbeddedSeparatorSplitsPart | apps/backend/src/routes/data-to-csv-node.ts:10 | a part `a` + separator + `b`, with no other separator anywhere, reads back as the two parts `a` and `b` followed by the rest |
| NodeExport.ConvertToCsv | apps/backend/src/routes/data-to-csv-node.ts:8-12 | it fails exactly on empty input; otherwise the text is the header line and then the row lines, joined by single newlines |
| NodeExport.HeaderLine | apps/backend/src/routes/data-to-csv-node.ts:9 | the first record's field names joined by commas; when the record has fields and no name contains a comma, splitting the line at commas gives back the names |
| NodeExport.DownloadNodeCsv | apps/backend/src/routes/data-to-csv-node.ts:14-23 | the answer is 200 exactly when the fetch succeeded with at least one record, with the converted text as the body; otherwise it is 500 with the body `Internal Server Error`, the text `sendStatus(500)` sends |
| NodeExport.JoinKeepsOut | apps/backend/src/routes/data-to-csv-node.ts:10-11 | a line joined from newline-free values with a comma contains no newline |
| NodeExport.ExportLines | apps/backend/src/routes/data-to-csv-node.ts:8-12 | with no newline in any name or value (commas allowed), the export has one line more than there are records: the first record's field names joined by commas, then each record's values joined by commas |
| NodeExport.ExportRoundTrip | apps/backend/src/routes/data-to-csv-node.ts:9-11 | splitting the export on newlines and then commas recovers the first record's field names and every record's values |
| NodeExport.HeaderFromFirstRecordOnly | apps/backend/src/routes/data-to-csv-node.ts:9-10 | later records' field names never affect the export |

## Left out

- The route finder (`routes/path`, mounted at `apps/backend/src/app.ts:79`) is not part of this model.
- Express plumbing (middleware, routing, the 404/500 handlers in `app.ts`) is left out. So are the edge route's HTTP statuses, including the second `sendStatus(200)` after a 500, which fails because the headers are already sent.
- The database is abstract. `deleteMany` and `createMany` succeed or fail as `StoreReplies` says. The batch insert is taken to be all-or-nothing. Unique-ID and foreign-key constraints are not modelled; they are one reason an insert can fail.
- `parseCSV` is not part of this model. Its output rows, or `None` when it throws, are inputs. Each row is the `Object.values` sequence of one parsed row.
- The edge GET route (`findMany` sent as JSON), `form.ts` and the breakout high-score router are thin ORM wrappers and are left out. The top-5 ordering of high scores is done by the database.
- Node records are taken with values already rendered as text. `join`'s rendering of numbers and `null` is not modelled. Neither is the rule that `Object.keys` lists integer-like keys first.
- `allCharacters` is not part of this model, so its length is the `itemCount` parameter. It must be positive, because with no characters `setIndexSafely` computes `% 0` and stores NaN.
- JavaScript numbers are doubles; indices are modelled as unbounded integers (exact up to 2^53).
- Event-listener registration, React's re-render timing and the stale closures it allows between renders are left out. Events are processed one at a time, each seeing the previous event's state. `window.location` navigation is the `Launch` effect together with `LaunchUrl`.
- UI components (`GameOver.tsx`, `App.tsx`, `LoginButton.tsx`) are rendering and HTTP calls and are left out. This includes the 3-character cap on initials.
- Concurrent writers during the bulk replace, which is not atomic, are not modelled.
- NodeExport.ExportRoundTrip: requires every record to have at least one field, because a record with no fields renders as an empty line, and that reads back as one empty value rather than none.

=== FILE: character_selector.dfy ===
/**
 * The character-selector keyboard state machine of the minigame. The cursor
 * moves over `itemCount` characters laid out as a row of 7 above a row of 6;
 * while an arrow key is held, the other arrows are locked out; Enter first
 * marks the character as chosen and then launches the game with it; Escape
 * undoes the choice. Each React state setter becomes part of a returned state.
 */
module CharacterSelector {
  import opened Wrappers
  import Decimal

  const FirstRowSize: int := 7
  const SecondRowSize: int := 6

  datatype Arrow = Left | Right | Up | Down

  datatype Status = Unselected | Selected

  /** What a key name means to the selector. */
  datatype Key = ArrowKey(arrow: Arrow) | EnterKey | EscapeKey | OtherKey

  /** The browser's `KeyboardEvent.key` name of an arrow. */
  function ArrowName(a: Arrow): string {
    match a
    case Left => "ArrowLeft"
    case Right => "ArrowRight"
    case Up => "ArrowUp"
    case Down => "ArrowDown"
  }

  /** The `switch (event.key)` of the key-down handler. */
  function Classify(name: string): (k: Key)
    ensures k.ArrowKey? ==> name == ArrowName(k.arrow)
    ensures k == EnterKey <==> name == "Enter"
    ensures k == EscapeKey <==> name == "Escape"
  {
    if name == "ArrowLeft" then ArrowKey(Left)
    else if name == "ArrowRight" then ArrowKey(Right)
    else if name == "ArrowUp" then ArrowKey(Up)
    else if name == "ArrowDown" then ArrowKey(Down)
    else if name == "Enter" then EnterKey
    else if name == "Escape" then EscapeKey
    else OtherKey
  }

  /** Every arrow's name is recognised as that arrow, so names are distinct. */
  lemma ClassifyArrowName(a: Arrow)
    ensures Classify(ArrowName(a)) == ArrowKey(a)
  {
  }

  /** A name is classified as some arrow exactly when it is an arrow's name. */
  lemma ClassifyArrowIff(name: string)
    ensures Classify(name).ArrowKey? <==> exists a: Arrow :: ArrowName(a) == name
  {
  }

  /** The hook's state: cursor, held arrow (`None` for `null`), selection status. */
  datatype State = State(index: int, activeArrow: Option<Arrow>, status: Status)

  /** What a key-down does besides changing the state. */
  datatype Effect = NoEffect | Launch(characterIndex: int)

  /** The hook's initial state; `initialIndex` is stored as given. */
  function Initial(initialIndex: int): (s: State)
    ensures s.index == initialIndex && s.activeArrow == None && s.status == Unselected
  {
    State(initialIndex, None, Unselected)
  }

  /** A non-zero multiple of a positive `n` is at least `n` away from zero. */
  lemma MulBounds(k: int, n: int)
    requires n > 0
    ensures k >= 1 ==> k * n >= n
    ensures k <= -1 ==> k * n <= -n
  {
  }

  /** Euclidean division is unique: a quotient and an in-range remainder are `/` and `%`. */
  lemma ModUnique(x: int, n: int, q: int, r: int)
    requires n > 0 && 0 <= r < n && x == q * n + r
    ensures x % n == r
  {
    var q', r' := x / n, x % n;
    assert (q' - q) * n == r - r';
    MulBounds(q' - q, n);
  }

  /**
   * JavaScript's `%` for a positive divisor: truncating division, so the
   * remainder takes the sign of the dividend.
   */
  function TruncRem(a: int, n: int): (r: int)
    requires n > 0
    ensures a >= 0 ==> 0 <= r < n
    ensures a < 0 ==> -n < r <= 0
    ensures a >= 0 ==> r == a % n
    ensures (a - r) % n == 0
  {
    if a >= 0 then
      ModUnique(a - a % n, n, a / n, 0);
      a % n
    else
      ModUnique(a + (-a) % n, n, -((-a) / n), 0);
      -((-a) % n)
  }

  /** `setIndexSafely`: the index actually stored for a requested `newIndex`. */
  function NormalizeIndex(newIndex: int, itemCount: int): (r: int)
    requires itemCount > 0
    ensures newIndex >= -itemCount ==> 0 <= r < itemCount
    ensures newIndex < -itemCount ==> -itemCount < r <= 0
    ensures newIndex >= 0 ==> r == newIndex % itemCount
    ensures 0 <= newIndex < itemCount ==> r == newIndex
    ensures -itemCount <= newIndex < 0 ==> r == newIndex + itemCount
    ensures (r - newIndex) % itemCount == 0
  {
    var r := TruncRem(newIndex + itemCount, itemCount);
    NormalizeMatchesEuclid(newIndex, itemCount);
    NormalizeWrapsNegative(newIndex, itemCount);
    NormalizeCongruent(newIndex, itemCount);
    r
  }

  /** For a non-negative request, the truncating remainder of the shifted index is the Euclidean one. */
  lemma NormalizeMatchesEuclid(newIndex: int, itemCount: int)
    requires itemCount > 0
    ensures newIndex >= 0 ==> TruncRem(newIndex + itemCount, itemCount) == newIndex % itemCount
    ensures 0 <= newIndex < itemCount ==> TruncRem(newIndex + itemCount, itemCount) == newIndex
  {
    if newIndex >= 0 {
      ModUnique(newIndex + itemCount, itemCount, newIndex / itemCount + 1, newIndex % itemCount);
      if newIndex < itemCount {
        ModUnique(newIndex, itemCount, 0, newIndex);
      }
    }
  }

  /** A request in `[-itemCount, 0)` wraps round by exactly `itemCount`. */
  lemma NormalizeWrapsNegative(newIndex: int, itemCount: int)
    requires itemCount > 0
    ensures -itemCount <= newIndex < 0 ==> TruncRem(newIndex + itemCount, itemCount) == newIndex + itemCount
  {
    if -itemCount <= newIndex < 0 {
      ModUnique(newIndex + itemCount, itemCount, 0, newIndex + itemCount);
    }
  }

  /** The stored index differs from the request by a multiple of `itemCount`. */
  lemma NormalizeCongruent(newIndex: int, itemCount: int)
    requires itemCount > 0
    ensures (TruncRem(newIndex + itemCount, itemCount) - newIndex) % itemCount == 0
  {
    var a := newIndex + itemCount;
    var r := TruncRem(a, itemCount);
    var q := (a - r) / itemCount;
    assert a - r == q * itemCount;
    assert r - newIndex == (1 - q) * itemCount;
    ModUnique(r - newIndex, itemCount, 1 - q, 0);
  }

  predicate InRange(s: State, itemCount: int) {
    0 <= s.index < itemCount
  }

  /** `!activeArrowKey || activeArrowKey === name`: the move for `a` may proceed. */
  predicate Unlocked(s: State, a: Arrow) {
    s.activeArrow == None || s.activeArrow == Some(a)
  }

  /** `movePrev`: one step left, from the first character round to the last. */
  function MovePrev(s: State, itemCount: int): (r: State)
    requires itemCount > 0
    ensures !Unlocked(s, Left) ==> r == s
    ensures Unlocked(s, Left) ==> r.activeArrow == Some(Left) && r.status == s.status
    ensures Unlocked(s, Left) && 0 < s.index <= itemCount ==> r.index == s.index - 1
    ensures Unlocked(s, Left) && s.index == 0 ==> r.index == itemCount - 1
    ensures InRange(s, itemCount) ==> InRange(r, itemCount)
  {
    if Unlocked(s, Left) then
      s.(activeArrow := Some(Left), index := NormalizeIndex(s.index - 1, itemCount))
    else s
  }

  /** `moveNext`: one step right, from the last character round to the first. */
  function MoveNext(s: State, itemCount: int): (r: State)
    requires itemCount > 0
    ensures !Unlocked(s, Right) ==> r == s
    ensures Unlocked(s, Right) ==> r.activeArrow == Some(Right) && r.status == s.status
    ensures Unlocked(s, Right) && -1 <= s.index < itemCount - 1 ==> r.index == s.index + 1
    ensures Unlocked(s, Right) && s.index == itemCount - 1 ==> r.index == 0
    ensures InRange(s, itemCount) ==> InRange(r, itemCount)
  {
    if Unlocked(s, Right) then
      s.(activeArrow := Some(Right), index := NormalizeIndex(s.index + 1, itemCount))
    else s
  }

  /**
   * `moveUp`: from the second row (index 7 or more) to six places back; in
   * the first row only the held arrow is recorded.
   */
  function MoveUp(s: State, itemCount: int): (r: State)
    requires itemCount > 0
    ensures !Unlocked(s, Up) ==> r == s
    ensures Unlocked(s, Up) ==> r.activeArrow == Some(Up) && r.status == s.status
    ensures Unlocked(s, Up) && s.index < FirstRowSize ==> r.index == s.index
    ensures Unlocked(s, Up) && FirstRowSize <= s.index ==> 0 <= r.index < itemCount
    ensures Unlocked(s, Up) && FirstRowSize <= s.index < itemCount + SecondRowSize ==>
      r.index == s.index - SecondRowSize
    ensures InRange(s, itemCount) ==> InRange(r, itemCount)
  {
    if Unlocked(s, Up) then
      var t := s.(activeArrow := Some(Up));
      if s.index >= FirstRowSize then t.(index := NormalizeIndex(s.index - SecondRowSize, itemCount))
      else t
    else s
  }

  /**
   * `moveDown`: index 0 asks for index 7; the rest of the first row (and any
   * index below 0) asks for six places on; from the second row nothing moves.
   * The request goes through `setIndexSafely`, so it wraps when there are few
   * characters.
   */
  function MoveDown(s: State, itemCount: int): (r: State)
    requires itemCount > 0
    ensures !Unlocked(s, Down) ==> r == s
    ensures Unlocked(s, Down) ==> r.activeArrow == Some(Down) && r.status == s.status
    ensures Unlocked(s, Down) && s.index == 0 ==> r.index == 7 % itemCount
    ensures Unlocked(s, Down) && s.index == 0 && itemCount > 7 ==> r.index == 7
    ensures Unlocked(s, Down) && 0 < s.index < FirstRowSize ==>
      r.index == (s.index + SecondRowSize) % itemCount
    ensures Unlocked(s, Down) && 0 < s.index < FirstRowSize && s.index + SecondRowSize < itemCount ==>
      r.index == s.index + SecondRowSize
    ensures Unlocked(s, Down) && 0 <= s.index < FirstRowSize ==> 0 <= r.index < itemCount
    ensures Unlocked(s, Down) && s.index >= FirstRowSize ==> r.index == s.index
    ensures InRange(s, itemCount) ==> InRange(r, itemCount)
  {
    if Unlocked(s, Down) then
      var t := s.(activeArrow := Some(Down));
      if s.index == 0 then t.(index := NormalizeIndex(7, itemCount))
      else if s.index < FirstRowSize then t.(index := NormalizeIndex(s.index + SecondRowSize, itemCount))
      else t
    else s
  }

  /** `keyboardEnter`: the first Enter selects, the next launches the game with the cursor's character. */
  function KeyboardEnter(s: State): (r: (State, Effect))
    ensures r.0.index == s.index && r.0.activeArrow == s.activeArrow
    ensures r.0.status == Selected
    ensures r.1.Launch? <==> s.status == Selected
    ensures r.1.Launch? ==> r.1.characterIndex == s.index
  {
    match s.status
    case Unselected => (s.(status := Selected), NoEffect)
    case Selected => (s, Launch(s.index))
  }

  /** `keyboardEscape`: back to unselected, nothing else touched. */
  function KeyboardEscape(s: State): (r: State)
    ensures r.status == Unselected && r.index == s.index && r.activeArrow == s.activeArrow
  {
    s.(status := Unselected)
  }

  /** `setCurrentIndex`: an explicit jump, normalised like every move. */
  function SetCurrentIndex(s: State, newIndex: int, itemCount: int): (r: State)
    requires itemCount > 0
    ensures r.activeArrow == s.activeArrow && r.status == s.status
    ensures 0 <= newIndex < itemCount ==> r.index == newIndex
    ensures newIndex >= -itemCount ==> InRange(r, itemCount)
    ensures (r.index - newIndex) % itemCount == 0
  {
    s.(index := NormalizeIndex(newIndex, itemCount))
  }

  /** `handleKeyDown`: dispatch on the key name; unknown keys change nothing. */
  function KeyDown(s: State, name: string, itemCount: int): (r: (State, Effect))
    requires itemCount > 0
    ensures Classify(name) == OtherKey ==> r == (s, NoEffect)
    ensures r.1.Launch? ==> name == "Enter" && s.status == Selected && r.1.characterIndex == s.index
    ensures r.1.Launch? || Classify(name).ArrowKey? ==> r.0.status == s.status
    ensures !Classify(name).ArrowKey? ==> r.0.index == s.index && r.0.activeArrow == s.activeArrow
    ensures InRange(s, itemCount) ==> InRange(r.0, itemCount)
    ensures name == "Enter" ==> r.0.status == Selected && (r.1.Launch? <==> s.status == Selected)
    ensures name == "Escape" ==> r.0.status == Unselected
    ensures Classify(name).ArrowKey? && Unlocked(s, Classify(name).arrow) ==>
      r.0.activeArrow == Some(Classify(name).arrow)
    ensures Classify(name).ArrowKey? && !Unlocked(s, Classify(name).arrow) ==> r == (s, NoEffect)
  {
    match Classify(name)
    case ArrowKey(Left) => (MovePrev(s, itemCount), NoEffect)
    case ArrowKey(Right) => (MoveNext(s, itemCount), NoEffect)
    case ArrowKey(Up) => (MoveUp(s, itemCount), NoEffect)
    case ArrowKey(Down) => (MoveDown(s, itemCount), NoEffect)
    case EnterKey => KeyboardEnter(s)
    case EscapeKey => (KeyboardEscape(s), NoEffect)
    case OtherKey => (s, NoEffect)
  }

  /** `handleKeyUp`: releasing the held arrow frees the lock; any other release is ignored. */
  function KeyUp(s: State, name: string): (r: State)
    ensures r.index == s.index && r.status == s.status
    ensures r.activeArrow == None || r.activeArrow == s.activeArrow
    ensures r.activeArrow != s.activeArrow <==> s.activeArrow.Some? && name == ArrowName(s.activeArrow.value)
  {
    if s.activeArrow.Some? && name == ArrowName(s.activeArrow.value) then s.(activeArrow := None) else s
  }

  /** `getCharacter`: the character under the cursor, `None` (undefined) off the list. */
  function GetCharacter<C>(characters: seq<C>, s: State): (c: Option<C>)
    ensures c.Some? <==> InRange(s, |characters|)
    ensures c.Some? ==> c.value == characters[s.index]
  {
    if 0 <= s.index < |characters| then Some(characters[s.index]) else None
  }

  /** From an in-range cursor, every sequence of key events leaves a character under the cursor. */
  lemma CharacterAlwaysDefined<C>(characters: seq<C>, s: State, events: seq<Event>)
    requires |characters| > 0
    requires InRange(s, |characters|)
    ensures GetCharacter(characters, Run(s, events, |characters|).0).Some?
  {
    RunKeepsInRange(s, events, |characters|);
  }

  /** The address the launch navigates to. */
  function LaunchUrl(characterIndex: int): (url: string)
    ensures |url| > |LaunchPrefix|
    ensures url[..|LaunchPrefix|] == LaunchPrefix
    ensures Decimal.ParseInt(url[|LaunchPrefix|..]) == Some(characterIndex)
  {
    Decimal.IntRoundTrip(characterIndex);
    assert (LaunchPrefix + Decimal.IntToString(characterIndex))[|LaunchPrefix|..] == Decimal.IntToString(characterIndex);
    LaunchPrefix + Decimal.IntToString(characterIndex)
  }

  const LaunchPrefix: string := "/brigham-breakout?characterIndex="

  /** A keyboard event delivered to the document. */
  datatype Event = KeyPress(key: string) | KeyRelease(key: string)

  function Step(s: State, e: Event, itemCount: int): (r: (State, Effect))
    requires itemCount > 0
    ensures e.KeyRelease? ==> r == (KeyUp(s, e.key), NoEffect)
    ensures e.KeyPress? ==> r == KeyDown(s, e.key, itemCount)
  {
    match e
    case KeyPress(k) => KeyDown(s, k, itemCount)
    case KeyRelease(k) => (KeyUp(s, k), NoEffect)
  }

  /** The state after a sequence of events, and the effect of each event in order. */
  function Run(s: State, events: seq<Event>, itemCount: int): (r: (State, seq<Effect>))
    requires itemCount > 0
    ensures |r.1| == |events|
    decreases |events|
  {
    if |events| == 0 then (s, [])
    else
      var (t, eff) := Step(s, events[0], itemCount);
      var (u, effs) := Run(t, events[1..], itemCount);
      (u, [eff] + effs)
  }

  /** Running two event sequences one after the other is running their concatenation. */
  lemma {:induction false} RunAppend(s: State, a: seq<Event>, b: seq<Event>, itemCount: int)
    requires itemCount > 0
    ensures var (t, ea) := Run(s, a, itemCount);
      var (u, eb) := Run(t, b, itemCount);
      Run(s, a + b, itemCount) == (u, ea + eb)
    decreases |a|
  {
    if |a| == 0 {
      assert a + b == b;
      assert Run(s, a, itemCount) == (s, []);
      var (u, eb) := Run(s, b, itemCount);
      assert [] + eb == eb;
    } else {
      assert (a + b)[1..] == a[1..] + b;
      assert (a + b)[0] == a[0];
      var (t0, e0) := Step(s, a[0], itemCount);
      RunAppend(t0, a[1..], b, itemCount);
      var (t, ea) := Run(t0, a[1..], itemCount);
      var (u, eb) := Run(t, b, itemCount);
      assert Run(s, a, itemCount) == (t, [e0] + ea);
      assert Run(s, a + b, itemCount) == (u, [e0] + (ea + eb));
      assert [e0] + (ea + eb) == ([e0] + ea) + eb;
    }
  }

  /** No sequence of events takes an in-range cursor out of range. */
  lemma {:induction false} RunKeepsInRange(s: State, events: seq<Event>, itemCount: int)
    requires itemCount > 0
    requires InRange(s, itemCount)
    ensures InRange(Run(s, events, itemCount).0, itemCount)
    decreases |events|
  {
    if |events| > 0 {
      RunKeepsInRange(Step(s, events[0], itemCount).0, events[1..], itemCount);
    }
  }

  /** A launch happens only on Enter while selected, and carries the cursor at that moment. */
  lemma {:induction false} LaunchOnlyWhenSelected(s: State, events: seq<Event>, itemCount: int, k: nat)
    requires itemCount > 0
    requires k < |events|
    requires Run(s, events, itemCount).1[k].Launch?
    ensures var before := Run(s, events[..k], itemCount).0;
      && events[k] == KeyPress("Enter")
      && before.status == Selected
      && Run(s, events, itemCount).1[k] == Launch(before.index)
    decreases k
  {
    if k > 0 {
      var t := Step(s, events[0], itemCount).0;
      LaunchOnlyWhenSelected(t, events[1..], itemCount, k - 1);
      assert events[1..][..k - 1] == events[..k][1..];
    }
  }

  /** Conversely, an Enter pressed while selected launches with the index at that moment. */
  lemma {:induction false} EnterWhenSelectedLaunches(s: State, events: seq<Event>, itemCount: int, k: nat)
    requires itemCount > 0
    requires k < |events|
    requires events[k] == KeyPress("Enter")
    requires Run(s, events[..k], itemCount).0.status == Selected
    ensures Run(s, events, itemCount).1[k] == Launch(Run(s, events[..k], itemCount).0.index)
    decreases k
  {
    if k > 0 {
      var t := Step(s, events[0], itemCount).0;
      assert events[1..][..k - 1] == events[..k][1..];
      EnterWhenSelectedLaunches(t, events[1..], itemCount, k - 1);
    }
  }

  /** `n` copies of one event, as keyboard auto-repeat delivers while a key is held. */
  function Repeat(e: Event, n: nat): (es: seq<Event>)
    ensures |es| == n
    ensures forall i :: 0 <= i < n ==> es[i] == e
  {
    seq(n, _ => e)
  }

  /**
   * Holding ArrowRight moves the cursor one place per key-down, wrapping
   * round: `n` presses from an in-range cursor land on `(index + n) mod itemCount`.
   */
  lemma {:induction false} HoldRight(s: State, n: nat, itemCount: int)
    requires itemCount > 0
    requires InRange(s, itemCount) && Unlocked(s, Right)
    ensures Run(s, Repeat(KeyPress("ArrowRight"), n), itemCount).0.index == (s.index + n) % itemCount
    ensures n > 0 ==> Run(s, Repeat(KeyPress("ArrowRight"), n), itemCount).0.activeArrow == Some(Right)
    ensures Run(s, Repeat(KeyPress("ArrowRight"), n), itemCount).0.status == s.status
    ensures forall i :: 0 <= i < n ==> Run(s, Repeat(KeyPress("ArrowRight"), n), itemCount).1[i] == NoEffect
    decreases n
  {
    var es := Repeat(KeyPress("ArrowRight"), n);
    if n == 0 {
      assert Run(s, es, itemCount) == (s, []);
      ModUnique(s.index, itemCount, 0, s.index);
    } else {
      var t := MoveNext(s, itemCount);
      assert Step(s, es[0], itemCount) == (t, NoEffect);
      assert es[1..] == Repeat(KeyPress("ArrowRight"), n - 1);
      HoldRight(t, n - 1, itemCount);
      var r := Run(t, es[1..], itemCount);
      assert Run(s, es, itemCount) == (r.0, [NoEffect] + r.1);
      assert r.0.index == (t.index + (n - 1)) % itemCount;
      ModStep(s.index, n - 1, itemCount);
      assert s.index + 1 + (n - 1) == s.index + n;
    }
  }

  /** Advancing one place with wrap-around, then `k` more, is advancing `k + 1`. */
  lemma ModStep(i: int, k: nat, n: int)
    requires n > 0 && 0 <= i < n
    ensures ((if i == n - 1 then 0 else i + 1) + k) % n == (i + 1 + k) % n
  {
    if i == n - 1 {
      ModUnique(k, n, k / n, k % n);
      ModUnique(i + 1 + k, n, k / n + 1, k % n);
    }
  }

  /**
   * While one arrow is held, presses of the other arrows and releases of
   * other keys change nothing at all.
   */
  lemma {:induction false} LockHolds(s: State, a: Arrow, events: seq<Event>, itemCount: int)
    requires itemCount > 0
    requires s.activeArrow == Some(a)
    requires forall i :: 0 <= i < |events| ==>
      (events[i].KeyPress? && exists b: Arrow :: b != a && events[i].key == ArrowName(b))
      || (events[i].KeyRelease? && events[i].key != ArrowName(a))
    ensures Run(s, events, itemCount).0 == s
    ensures forall i :: 0 <= i < |events| ==> Run(s, events, itemCount).1[i] == NoEffect
    decreases |events|
  {
    if |events| > 0 {
      var e := events[0];
      if e.KeyPress? {
        var b: Arrow :| b != a && e.key == ArrowName(b);
        ClassifyArrowName(b);
      }
      assert Step(s, e, itemCount) == (s, NoEffect);
      LockHolds(s, a, events[1..], itemCount);
    }
  }

  /** Pressing then releasing an arrow from an unlocked state leaves it unlocked again. */
  lemma PressReleaseUnlocks(s: State, a: Arrow, itemCount: int)
    requires itemCount > 0
    requires s.activeArrow == None
    ensures Run(s, [KeyPress(ArrowName(a)), KeyRelease(ArrowName(a))], itemCount).0.activeArrow == None
  {
    var evs := [KeyPress(ArrowName(a)), KeyRelease(ArrowName(a))];
    ClassifyArrowName(a);
    var t := Step(s, evs[0], itemCount).0;
    assert t.activeArrow == Some(a);
    assert evs[1..] == [KeyRelease(ArrowName(a))];
    assert Run(t, evs[1..], itemCount).0 == KeyUp(t, ArrowName(a)) by {
      assert evs[1..][1..] == [];
    }
    assert Run(s, evs, itemCount).0 == KeyUp(t, ArrowName(a));
  }

  /** Right then left, with the key released in between, returns to the same character. */
  lemma NextThenPrev(s: State, itemCount: int)
    requires itemCount > 0
    requires InRange(s, itemCount) && s.activeArrow == None
    ensures var evs := [KeyPress("ArrowRight"), KeyRelease("ArrowRight"), KeyPress("ArrowLeft")];
      Run(s, evs, itemCount).0.index == s.index
  {
  }

  /** Down then up from first-row positions 1 to 6 returns to the start (enough characters assumed). */
  lemma DownThenUp(s: State, itemCount: int)
    requires 0 < s.index < FirstRowSize && s.index + SecondRowSize < itemCount
    requires s.activeArrow == None
    ensures var evs := [KeyPress("ArrowDown"), KeyRelease("ArrowDown"), KeyPress("ArrowUp")];
      Run(s, evs, itemCount).0.index == s.index
  {
  }

  /** Up then down from second-row positions 7 to 12 returns to the start. */
  lemma UpThenDown(s: State, itemCount: int)
    requires FirstRowSize <= s.index < FirstRowSize + SecondRowSize && s.index < itemCount
    requires s.activeArrow == None
    ensures var evs := [KeyPress("ArrowUp"), KeyRelease("ArrowUp"), KeyPress("ArrowDown")];
      Run(s, evs, itemCount).0.index == s.index
  {
  }

  /** The first character goes down to index 7 but comes back up to index 1: rows are staggered. */
  lemma DownFromFirstComesBackOne(itemCount: int)
    requires itemCount > FirstRowSize
    ensures var evs := [KeyPress("ArrowDown"), KeyRelease("ArrowDown"), KeyPress("ArrowUp")];
      var r := Run(Initial(0), evs, itemCount).0;
      r.index == 1
  {
  }

  /** Enter twice from a fresh selector selects and then launches the character under the cursor. */
  lemma EnterTwiceLaunches(i: int, itemCount: int)
    requires itemCount > 0
    ensures Run(Initial(i), [KeyPress("Enter"), KeyPress("Enter")], itemCount).1 == [NoEffect, Launch(i)]
  {
  }

  /** Escape between the two Enters cancels the choice: nothing launches. */
  lemma EscapeCancels(i: int, itemCount: int)
    requires itemCount > 0
    ensures var r := Run(Initial(i), [KeyPress("Enter"), KeyPress("Escape"), KeyPress("Enter")], itemCount);
      r.1 == [NoEffect, NoEffect, NoEffect] && r.0.status == Selected
  {
  }
}

=== FILE: csv_text.dfy ===
/**
 * The two text operations the CSV adapters rely on: `Array.prototype.join`
 * with a separator, and splitting a string at every occurrence of a one-character
 * separator (the reading side of the comma/newline format, which has no quoting).
 */
module CsvText {

  /** `parts.join(sep)`: the parts in order with `sep` between neighbours and nowhere else. */
  function Join(parts: seq<string>, sep: string): (r: string)
    ensures |parts| == 0 ==> r == ""
    ensures |parts| > 0 ==> |r| >= |parts[0]| && r[..|parts[0]|] == parts[0]
    decreases |parts|
  {
    if |parts| == 0 then ""
    else if |parts| == 1 then parts[0]
    else parts[0] + sep + Join(parts[1..], sep)
  }

  /** Splits `s` at every `sep`; the pieces never contain `sep` and join back to `s`. */
  function Split(s: string, sep: char): (r: seq<string>)
    ensures |r| > 0
    ensures forall i :: 0 <= i < |r| ==> sep !in r[i]
    ensures Join(r, [sep]) == s
    decreases |s|
  {
    if |s| == 0 then [""]
    else
      var rest := Split(s[1..], sep);
      if s[0] == sep then
        assert Join([""] + rest, [sep]) == [sep] + Join(rest, [sep]) by {
          assert ([""] + rest)[1..] == rest;
        }
        assert s == [s[0]] + s[1..];
        [""] + rest
      else
        JoinConsHead(s[0], rest, [sep]);
        assert s == [s[0]] + s[1..];
        [[s[0]] + rest[0]] + rest[1..]
  }

  /** Prepending a character to the first part prepends it to the joined text. */
  lemma JoinConsHead(c: char, parts: seq<string>, sep: string)
    requires |parts| > 0
    ensures Join([[c] + parts[0]] + parts[1..], sep) == [c] + Join(parts, sep)
  {
  }

  /** Joining a leading part onto a non-empty rest puts exactly one separator between them. */
  lemma JoinCons(head: string, rest: seq<string>, sep: string)
    requires |rest| > 0
    ensures Join([head] + rest, sep) == head + sep + Join(rest, sep)
  {
  }

  /** Splitting a separator-free string yields just that string. */
  lemma {:induction false} SplitNoSeparator(s: string, sep: char)
    requires sep !in s
    ensures Split(s, sep) == [s]
    decreases |s|
  {
  }

  /** The first separator ends the first piece; the rest is split on its own. */
  lemma {:induction false} SplitAtFirst(a: string, sep: char, b: string)
    requires sep !in a
    ensures Split(a + [sep] + b, sep) == [a] + Split(b, sep)
    decreases |a|
  {
    var s := a + [sep] + b;
    if |a| == 0 {
      assert s[1..] == b;
    } else {
      assert s[1..] == a[1..] + [sep] + b;
      SplitAtFirst(a[1..], sep, b);
      assert a == [a[0]] + a[1..];
    }
  }

  /**
   * Round trip: when no part contains the separator, splitting the joined
   * text gives back exactly the parts.
   */
  lemma {:induction false} SplitJoin(parts: seq<string>, sep: char)
    requires |parts| > 0
    requires forall i :: 0 <= i < |parts| ==> sep !in parts[i]
    ensures Split(Join(parts, [sep]), sep) == parts
    decreases |parts|
  {
    if |parts| == 1 {
      SplitNoSeparator(parts[0], sep);
    } else {
      SplitJoin(parts[1..], sep);
      SplitAtFirst(parts[0], sep, Join(parts[1..], [sep]));
      assert [parts[0]] + parts[1..] == parts;
    }
  }

  /**
   * A separator inside a part is indistinguishable from one between parts:
   * a part `a + sep + b` reads back as the two parts `a` and `b`.
   */
  lemma EmbeddedSeparatorSplitsPart(a: string, b: string, rest: seq<string>, sep: char)
    requires sep !in a && sep !in b
    requires forall i :: 0 <= i < |rest| ==> sep !in rest[i]
    ensures Split(Join([a + [sep] + b] + rest, [sep]), sep) == [a, b] + rest
  {
    if |rest| == 0 {
      assert [a + [sep] + b] + rest == [a + [sep] + b];
      SplitAtFirst(a, sep, b);
      SplitNoSeparator(b, sep);
    } else {
      var tail := Join(rest, [sep]);
      var joined := Join([a + [sep] + b] + rest, [sep]);
      assert joined == a + [sep] + (b + [sep] + tail) by {
        JoinCons(a + [sep] + b, rest, [sep]);
      }
      assert Split(joined, sep) == [a] + Split(b + [sep] + tail, sep) by {
        SplitAtFirst(a, sep, b + [sep] + tail);
      }
      assert Split(b + [sep] + tail, sep) == [b] + rest by {
        SplitAtFirst(b, sep, tail);
        SplitJoin(rest, sep);
      }
      assert [a] + ([b] + rest) == [a, b] + rest;
    }
  }
}

=== FILE: decimal.dfy ===
/**
 * Decimal text of integers, as a JavaScript template literal renders an
 * integral number (`${i}`), together with a reference parser that reads it back.
 */
module Decimal {
  import opened Wrappers

  predicate IsDigit(c: char) {
    '0' <= c <= '9'
  }

  function DigitChar(d: nat): (c: char)
    requires d < 10
    ensures IsDigit(c)
  {
    "0123456789"[d]
  }

  function DigitValue(c: char): (d: nat)
    requires IsDigit(c)
    ensures d < 10
  {
    (c as int - '0' as int) as nat
  }

  /** Shortest decimal text of `n`: no sign, and no leading zero unless `n` is 0. */
  function NatToString(n: nat): (s: string)
    ensures |s| > 0
    ensures forall i :: 0 <= i < |s| ==> IsDigit(s[i])
    ensures s[0] == '0' ==> n == 0
    ensures n == 0 ==> s == "0"
    decreases n
  {
    if n < 10 then [DigitChar(n)] else NatToString(n / 10) + [DigitChar(n % 10)]
  }

  /** Value of a run of digits (0 for none). */
  function StringToNat(s: string): nat
    requires forall i :: 0 <= i < |s| ==> IsDigit(s[i])
    decreases |s|
  {
    if |s| == 0 then 0 else StringToNat(s[..|s| - 1]) * 10 + DigitValue(s[|s| - 1])
  }

  lemma {:induction false} NatRoundTrip(n: nat)
    ensures StringToNat(NatToString(n)) == n
    decreases n
  {
    var s := NatToString(n);
    if n >= 10 {
      assert s[..|s| - 1] == NatToString(n / 10);
      NatRoundTrip(n / 10);
    }
  }

  /** `${i}` for an integral number: a minus sign, then the digits of the magnitude. */
  function IntToString(i: int): (s: string)
    ensures i >= 0 ==> s == NatToString(i)
    ensures i < 0 ==> |s| >= 2 && s[0] == '-' && s[1..] == NatToString(-i)
  {
    if i < 0 then "-" + NatToString(-i) else NatToString(i)
  }

  predicate AllDigits(s: string) {
    forall i :: 0 <= i < |s| ==> IsDigit(s[i])
  }

  /** Reads an optionally signed run of digits; anything else is `None`. */
  function ParseInt(s: string): (r: Option<int>)
    ensures r.Some? ==> |s| > 0
  {
    if |s| > 0 && s[0] == '-' then
      if |s| > 1 && AllDigits(s[1..]) then var m: int := StringToNat(s[1..]); Some(-m) else None
    else if |s| > 0 && AllDigits(s) then Some(StringToNat(s))
    else None
  }

  /** A minus sign before a run of digits reads as the negated value. */
  lemma ParseNegative(t: string)
    requires |t| > 0 && AllDigits(t)
    ensures var m: int := StringToNat(t); ParseInt("-" + t) == Some(-m)
  {
    assert ("-" + t)[1..] == t;
  }

  /** A run of digits reads as its value. */
  lemma ParseDigits(t: string)
    requires |t| > 0 && AllDigits(t)
    ensures ParseInt(t) == Some(StringToNat(t))
  {
    assert t[0] != '-';
  }

  lemma IntRoundTrip(i: int)
    ensures ParseInt(IntToString(i)) == Some(i)
  {
    if i < 0 {
      var t := NatToString(-i);
      ParseNegative(t);
      NatRoundTrip(-i);
      assert IntToString(i) == "-" + t;
    } else {
      var t := NatToString(i);
      ParseDigits(t);
      NatRoundTrip(i);
      assert IntToString(i) == t;
    }
  }
}

=== FILE: edge_import.dfy ===
/**
 * The edge CSV import (POST handler of the edge-populate route): clear the
 * edge table, map every parsed row to an edge record by position, then insert
 * all of them. The parser and the store are external; their outcomes are inputs.
 */
module EdgeImport {
  import opened Wrappers

  /** `Object.values(row)` of one parsed CSV row, in column order. */
  type Row = seq<string>

  /**
   * A stored edge. `endNodeID` is `None` when the row had no second value
   * (JavaScript reads it as `undefined`).
   */
  datatype Edge = Edge(edgeID: string, startNodeID: string, endNodeID: Option<string>)

  /** The edge table, in insertion order. */
  type Table = seq<Edge>

  /** `String(v)`: the text `concat` appends for a value, `"undefined"` for a missing one. */
  function AsText(v: Option<string>): (t: string)
    ensures v.Some? ==> t == v.value
    ensures v.None? ==> t == "undefined"
  {
    match v
    case Some(s) => s
    case None => "undefined"
  }

  /** The value at column `i`, or `None` past the end of the row. */
  function Column(row: Row, i: nat): (v: Option<string>)
    ensures v.Some? <==> i < |row|
    ensures v.Some? ==> v.value == row[i]
  {
    if i < |row| then Some(row[i]) else None
  }

  /**
   * The row-to-edge mapping: the edge starts at the first value, ends at the
   * second, and its identifier is the two run together. A row with no values
   * has nothing to call `concat` on, which throws.
   */
  function RowToEdge(row: Row): (r: Option<Edge>)
    ensures r.None? <==> |row| == 0
    ensures r.Some? ==> r.value.startNodeID == row[0]
    ensures r.Some? ==> r.value.endNodeID == Column(row, 1)
    ensures r.Some? ==> r.value.edgeID == r.value.startNodeID + AsText(r.value.endNodeID)
  {
    if |row| == 0 then None
    else Some(Edge(row[0] + AsText(Column(row, 1)), row[0], Column(row, 1)))
  }

  /**
   * `rows.map(...)`: one edge per row, in row order; the first empty row
   * aborts the whole mapping and its position is the error.
   */
  function TransformRows(rows: seq<Row>): (r: Result<seq<Edge>, nat>)
    ensures r.Success? <==> forall i :: 0 <= i < |rows| ==> |rows[i]| > 0
    ensures r.Success? ==> |r.value| == |rows|
    ensures r.Success? ==> forall i :: 0 <= i < |rows| ==> RowToEdge(rows[i]) == Some(r.value[i])
    ensures r.Failure? ==> r.error < |rows| && |rows[r.error]| == 0
    ensures r.Failure? ==> forall j :: 0 <= j < r.error ==> |rows[j]| > 0
    decreases |rows|
  {
    if |rows| == 0 then Success([])
    else
      match RowToEdge(rows[0])
      case None => Failure(0)
      case Some(e) =>
        match TransformRows(rows[1..])
        case Failure(k) => Failure(k + 1)
        case Success(es) => Success([e] + es)
  }

  /** Why an import did not complete. */
  datatype ImportError =
    | ClearFailed          // `deleteMany` failed; nothing was changed
    | ParseFailed          // the CSV text could not be parsed
    | EmptyRow(row: nat)   // the row at this position had no values
    | InsertFailed         // `createMany` rejected the batch

  /** What the store answers to the two requests the handler makes. */
  datatype StoreReplies = StoreReplies(clearSucceeds: bool, insertSucceeds: bool)

  /**
   * The POST handler over an abstract table. `parsed` is the parser's output
   * (`None` when it throws). The batch insert is taken to be all-or-nothing.
   */
  function ImportEdges(table: Table, store: StoreReplies, parsed: Option<seq<Row>>): (r: (Table, Result<(), ImportError>))
    ensures !store.clearSucceeds ==> r == (table, Failure(ClearFailed))
    ensures store.clearSucceeds && r.1.Failure? ==> r.0 == []
    ensures r.1.Success? <==>
      store.clearSucceeds && store.insertSucceeds && parsed.Some? && TransformRows(parsed.value).Success?
    ensures r.1.Success? ==> r.0 == TransformRows(parsed.value).value
    ensures r.1.Failure? && r.1.error == ParseFailed <==> store.clearSucceeds && parsed.None?
  {
    if !store.clearSucceeds then (table, Failure(ClearFailed))
    else
      match parsed
      case None => ([], Failure(ParseFailed))
      case Some(rows) =>
        match TransformRows(rows)
        case Failure(k) => ([], Failure(EmptyRow(k)))
        case Success(edges) =>
          if store.insertSucceeds then (edges, Success(())) else ([], Failure(InsertFailed))
  }

  /**
   * After a successful import the table holds exactly one edge per row, in
   * row order, each built from its row's first two values; no edge stored
   * before survives unless a row rebuilds it.
   */
  lemma ImportReplacesTable(table: Table, store: StoreReplies, rows: seq<Row>)
    requires ImportEdges(table, store, Some(rows)).1.Success?
    ensures var t := ImportEdges(table, store, Some(rows)).0;
      && |t| == |rows|
      && (forall i :: 0 <= i < |rows| ==>
            t[i].startNodeID == rows[i][0] && t[i].endNodeID == Column(rows[i], 1)
            && t[i].edgeID == rows[i][0] + AsText(Column(rows[i], 1)))
      && (forall e :: e in table && e in t ==> exists i :: 0 <= i < |rows| && RowToEdge(rows[i]) == Some(e))
  {
  }

  /** Any failure after the table was cleared leaves it empty. */
  lemma FailureLeavesTableEmpty(table: Table, store: StoreReplies, parsed: Option<seq<Row>>)
    requires store.clearSucceeds
    requires ImportEdges(table, store, parsed).1.Failure?
    ensures ImportEdges(table, store, parsed).0 == []
  {
  }

  /** Values beyond the second column do not affect the edge. */
  lemma ExtraColumnsIgnored(row: Row, extra: seq<string>)
    requires |row| >= 2
    ensures RowToEdge(row[..2] + extra) == RowToEdge(row)
  {
  }

  /** Two rows that agree on their first two values give the same edge, identifier included. */
  lemma SameEndpointsSameEdge(a: Row, b: Row)
    requires |a| >= 2 && |b| >= 2
    requires a[0] == b[0] && a[1] == b[1]
    ensures RowToEdge(a) == RowToEdge(b)
  {
  }

  /** The identifier alone does not determine the endpoints: distinct pairs can share one. */
  lemma EdgeIdsCanCollide()
    ensures RowToEdge(["AB", "C"]).value.edgeID == RowToEdge(["A", "BC"]).value.edgeID
    ensures RowToEdge(["AB", "C"]).value.startNodeID != RowToEdge(["A", "BC"]).value.startNodeID
  {
  }

  /** When start identifiers have the same length, the identifier determines both endpoints. */
  lemma EdgeIdDeterminesEndpoints(a: Row, b: Row)
    requires |a| >= 2 && |b| >= 2
    requires |a[0]| == |b[0]|
    requires RowToEdge(a).value.edgeID == RowToEdge(b).value.edgeID
    ensures a[0] == b[0] && a[1] == b[1]
  {
    var ida := RowToEdge(a).value.edgeID;
    var idb := RowToEdge(b).value.edgeID;
    assert a[0] == ida[..|a[0]|] == idb[..|b[0]|] == b[0];
    assert a[1] == ida[|a[0]|..] == idb[|b[0]|..] == b[1];
  }

  /** A row with a single value yields an edge whose identifier ends in the text "undefined". */
  lemma SingleColumnRow(v: string)
    ensures RowToEdge([v]) == Some(Edge(v + "undefined", v, None))
  {
  }
}

=== FILE: node_export.dfy ===
/**
 * The node CSV download: `convertToCSV` renders the node records fetched from
 * the store as a header line (the first record's field names) followed by one
 * line per record (its field values), comma-separated, newline-joined.
 */
module NodeExport {
  import opened Wrappers
  import opened CsvText

  /** One field of a record: its name and its value, already rendered as text. */
  datatype Field = Field(key: string, value: string)

  /** A node record, its fields in the record's own enumeration order. */
  type NodeRecord = seq<Field>

  /** `Object.keys(record)`. */
  function Keys(rec: NodeRecord): (ks: seq<string>)
    ensures |ks| == |rec|
    ensures forall i :: 0 <= i < |rec| ==> ks[i] == rec[i].key
  {
    seq(|rec|, i requires 0 <= i < |rec| => rec[i].key)
  }

  /** `Object.values(record)`. */
  function Values(rec: NodeRecord): (vs: seq<string>)
    ensures |vs| == |rec|
    ensures forall i :: 0 <= i < |rec| ==> vs[i] == rec[i].value
  {
    seq(|rec|, i requires 0 <= i < |rec| => rec[i].value)
  }

  /** Why no CSV text was produced. */
  datatype ExportError = NoRecords  // `data[0]` is undefined, so reading its keys throws

  /** The header line: the first record's field names, comma-joined, and readable back as such. */
  function HeaderLine(data: seq<NodeRecord>): (h: string)
    requires |data| > 0
    ensures |data[0]| > 0 && (forall j :: 0 <= j < |data[0]| ==> ',' !in data[0][j].key) ==>
      Split(h, ',') == Keys(data[0])
  {
    assert |data[0]| > 0 && (forall j :: 0 <= j < |data[0]| ==> ',' !in data[0][j].key) ==>
      Split(Join(Keys(data[0]), ","), ',') == Keys(data[0]) by {
      if |data[0]| > 0 && (forall j :: 0 <= j < |data[0]| ==> ',' !in data[0][j].key) {
        SplitJoin(Keys(data[0]), ',');
      }
    }
    Join(Keys(data[0]), ",")
  }

  /** `data.map(node => Object.values(node).join(","))`. */
  function RowLines(data: seq<NodeRecord>): (rows: seq<string>)
    ensures |rows| == |data|
    ensures forall k :: 0 <= k < |data| ==> rows[k] == Join(Values(data[k]), ",")
  {
    seq(|data|, k requires 0 <= k < |data| => Join(Values(data[k]), ","))
  }

  /**
   * `convertToCSV`: the header line and then every row line, each pair of
   * neighbouring lines separated by one newline and no newline at the end.
   * An empty record list has no first record, which is an error.
   */
  function ConvertToCsv(data: seq<NodeRecord>): (r: Result<string, ExportError>)
    ensures r.Failure? <==> |data| == 0
    ensures r.Failure? ==> r.error == NoRecords
    ensures r.Success? ==> r.value == Join([HeaderLine(data)] + RowLines(data), "\n")
  {
    if |data| == 0 then Failure(NoRecords)
    else
      JoinCons(HeaderLine(data), RowLines(data), "\n");
      Success(HeaderLine(data) + "\n" + Join(RowLines(data), "\n"))
  }

  /** The body `sendStatus(500)` sends: the status code's standard reason phrase. */
  const ServerErrorText: string := "Internal Server Error"

  /** An HTTP answer: a status code and a body. */
  datatype Response = Response(status: nat, body: string)

  /**
   * The GET handler: the store's records (`None` when `findMany` fails) are
   * converted and sent with status 200; a store failure or a conversion
   * failure is answered with 500.
   */
  function DownloadNodeCsv(fetched: Option<seq<NodeRecord>>): (resp: Response)
    ensures resp.status == 200 || resp.status == 500
    ensures resp.status == 500 ==> resp.body == ServerErrorText
    ensures resp.status == 200 <==> fetched.Some? && |fetched.value| > 0
    ensures resp.status == 200 ==> Success(resp.body) == ConvertToCsv(fetched.value)
  {
    match fetched
    case None => Response(500, ServerErrorText)
    case Some(nodes) =>
      match ConvertToCsv(nodes)
      case Success(csv) => Response(200, csv)
      case Failure(_) => Response(500, ServerErrorText)
  }

  /** No field name or value of any record contains a comma or a newline. */
  predicate PlainText(data: seq<NodeRecord>) {
    forall k, j :: 0 <= k < |data| && 0 <= j < |data[k]| ==>
      ',' !in data[k][j].key && ',' !in data[k][j].value &&
      '\n' !in data[k][j].key && '\n' !in data[k][j].value
  }

  /** No field name or value of any record contains a newline. */
  predicate NewlineFree(data: seq<NodeRecord>) {
    forall k, j :: 0 <= k < |data| && 0 <= j < |data[k]| ==>
      '\n' !in data[k][j].key && '\n' !in data[k][j].value
  }

  /** A joined line of newline-free items contains no newline. */
  lemma {:induction false} JoinKeepsOut(parts: seq<string>, sep: string, c: char)
    requires c !in sep
    requires forall i :: 0 <= i < |parts| ==> c !in parts[i]
    ensures c !in Join(parts, sep)
    decreases |parts|
  {
    if |parts| > 1 {
      JoinKeepsOut(parts[1..], sep, c);
    }
  }

  /**
   * Splitting the export at newlines gives `|data| + 1` lines: the first
   * record's field names joined by commas, then each record's values. Only
   * newlines matter here; commas inside names or values stay within a line.
   */
  lemma ExportLines(data: seq<NodeRecord>)
    requires |data| > 0
    requires NewlineFree(data)
    ensures ConvertToCsv(data).Success?
    ensures var lines := Split(ConvertToCsv(data).value, '\n');
      && |lines| == |data| + 1
      && lines[0] == Join(Keys(data[0]), ",")
      && forall k :: 0 <= k < |data| ==> lines[k + 1] == Join(Values(data[k]), ",")
  {
    var lines := [HeaderLine(data)] + RowLines(data);
    JoinKeepsOut(Keys(data[0]), ",", '\n');
    forall k | 0 <= k < |data|
      ensures '\n' !in RowLines(data)[k]
    {
      JoinKeepsOut(Values(data[k]), ",", '\n');
    }
    assert forall i :: 0 <= i < |lines| ==> '\n' !in lines[i] by {
      forall i | 0 <= i < |lines| ensures '\n' !in lines[i] {
        if i > 0 {
          assert lines[i] == RowLines(data)[i - 1];
        }
      }
    }
    SplitJoin(lines, '\n');
  }

  /**
   * Round trip: with no comma or newline in any name or value, reading the
   * export back (newlines, then commas) recovers the first record's field
   * names and every record's values in field order. A record without fields
   * renders as an empty line, which reads back as one empty value, so
   * records are taken to have at least one field.
   */
  lemma ExportRoundTrip(data: seq<NodeRecord>)
    requires |data| > 0
    requires PlainText(data)
    requires forall k :: 0 <= k < |data| ==> |data[k]| > 0
    ensures ConvertToCsv(data).Success?
    ensures var lines := Split(ConvertToCsv(data).value, '\n');
      && |lines| == |data| + 1
      && Split(lines[0], ',') == Keys(data[0])
      && forall k :: 0 <= k < |data| ==> Split(lines[k + 1], ',') == Values(data[k])
  {
    ExportLines(data);
    SplitJoin(Keys(data[0]), ',');
    forall k | 0 <= k < |data|
      ensures Split(Join(Values(data[k]), ","), ',') == Values(data[k])
    {
      SplitJoin(Values(data[k]), ',');
    }
  }

  /**
   * The header comes from the first record alone: two record lists that
   * agree on the first record's field names and on every record's values
   * export the same text, whatever names the later records carry.
   */
  lemma HeaderFromFirstRecordOnly(data: seq<NodeRecord>, other: seq<NodeRecord>)
    requires |data| == |other| > 0
    requires Keys(data[0]) == Keys(other[0])
    requires forall k :: 0 <= k < |data| ==> Values(data[k]) == Values(other[k])
    ensures ConvertToCsv(data) == ConvertToCsv(other)
  {
    assert RowLines(data) == RowLines(other);
  }
}

=== FILE: wrappers.dfy ===
/** Optional values and results shared by the other modules. */
module Wrappers {

  /** A value that may be absent; `None` also stands for JavaScript's `undefined`. */
  datatype Option<+T> = None | Some(value: T)

  /** The outcome of an operation that either succeeds with a value or fails with an error. */
  datatype Result<+R, +E> = Success(value: R) | Failure(error: E)
}
